=== FILE: README.md ===
# ResizableModal: geometry and gesture core

A Dafny model of the interaction core of the `ResizableModal` component of
dash_panels. This is a modal dialog for Dash dashboards that the user can drag
by its header (or a configured handle) and resize from one configurable corner.
Pixel values are mathematical integers. The viewport size and the clock are
inputs. With those choices the core is pure. The project has five modules:

- `Props` (props.dfy): optional props (`Opt`: `Undefined | Defined`). It
  models JavaScript's `v || d`, where `0` counts as missing, and
  `v !== undefined ? v : d`, where `0` is kept. It also has the clamp
  `Math.max(lo, Math.min(hi, v))`, in which the lower bound wins when the
  bounds cross.
- `Geometry` (geometry.dfy): the default props that fill in an absent
  `width`, `height`, `x` or `y`, and the initial placement from `x`/`y` or
  from `rightOffset`/`bottomOffset`. It also holds one resize step from the
  anchor recorded at the press, for each `resizeCorner`.
- `Bounds` (bounds.dfy): the `dragBounds` prop, which is none, `'viewport'`
  or a `{top, right, bottom, left}` object whose missing sides default to
  the viewport's edges. It also has the constraint applied to a dragged
  corner.
- `Gesture` (gesture.dfy): what a mousedown does as it bubbles from the
  pressed element outward. The elements are the header, the resize handle,
  the container, and children that may carry a `data-drag-handle` or
  `data-resize-handle` marker. Also in this module: `element.closest`, the
  drag-handle test, the `isDragging`/`isResizing` flags with their anchors,
  the drag and resize moves, and mouseup.
- `Shell` (shell.dfy): the whole modal. This covers the events it handles,
  the `setProps` updates it sends (`onResize`, `onMove`, `onClose`,
  `isOpen: false`), escape and backdrop dismissal, and runs of events. In a
  run, the owner applies the modal's own `isOpen: false`, which closes it:
  nothing renders (line 554) and the keydown listener is removed (lines
  381-386). The document-wide move listeners of a gesture in progress stay
  attached. It also covers the effects that reconcile the geometry with the owner's
  `width`/`height`/`x`/`y` and offset props, including the order they run in
  on mount.

A drag or resize move computes its result from the geometry captured when the
gesture started, not from the current geometry. The document-wide move
listener is the `handleResizeMove` or `handleDragMove` of the render in which
`handleResizeStart` or `handleDragStart` was last memoized (lines 188 and
292). Those start handlers depend on `dimensions`, so the listener they attach
closes over the geometry as it was when the gesture started.
`Shell.GestureIgnoresCurrentDims` states the consequence: an owner override
during a gesture is replaced by the next move.

Some facts about the code that the model makes explicit:

- The keydown listener is attached whenever the modal is open (lines
  381-386). `escapeClosable` is checked in the handler (lines 365-369).
- Nothing stops a second mousedown during a resize from also starting a drag.
  `Gesture.PressDuringResizeAlsoDrags` exhibits such a press. From no
  gesture, one press starts at most one gesture
  (`Gesture.PressStartsAtMostOne`). While both gestures are active, a move
  runs both move listeners in the order they were attached (lines 184 and
  288), so the gesture started later decides the geometry
  (`Shell.LaterGestureDecidesMove`).
- The `dragBounds` documentation promises that `'viewport'` keeps the modal
  "within browser viewport" (line 832). The clamp at lines 259-260 keeps
  that promise only when the modal fits. A modal wider than the viewport is
  pinned to the left edge and sticks out on the right
  (`Bounds.ViewportTooNarrow`).

The offset effect (lines 400-409) places the modal from the size *props*
(`width || 400`), not from its current size. So after the user resizes the
modal, changing only an offset misses the far edge
(`Shell.ResizedModalMissesOffset`). The same happens after a size prop of `0`
(`Shell.ZeroWidthMissesOffset`). The model records this as behaviour, not as
a defect.

## Model

| member | source | states |
|---|---|---|
| `Props.Clamp` | src/lib/components/ResizableModal.react.js:140 | The clamped value is never below the minimum. It is at most the maximum when min ≤ max. It is exactly the minimum when min > max. A value already in range is kept. |
| `Geometry.InitialPosition` | src/lib/components/ResizableModal.react.js:60-78 | Each axis is independent. With an offset, the far edge sits that many pixels inside the viewport, using the width and height props (400 and 300 when falsy). Without one, the coordinate prop is used, and a missing or `0` coordinate becomes 100. |
| `Geometry.InitialDims` | src/lib/components/ResizableModal.react.js:81-89 | The initial size is the size props with defaults 400×300, never 0. The initial corner is the initial position. |
| `Geometry.WithDefaults` | src/lib/components/ResizableModal.react.js:670-682 | An absent `width`, `height`, `x` or `y` becomes exactly 400, 300, 100 or 100, as the default props fill it in; a given value is kept; the offsets stay absent. The defaulted size is the size the `||` fallbacks give. |
| `Geometry.DefaultsKeepInitialPlacement` | src/lib/components/ResizableModal.react.js:60-78 | The default props and the placement rule's `||` fallbacks agree, so the initial position is the same with or without the defaults; defaulting twice is defaulting once. |
| `Geometry.InitialPositionExample` | src/lib/components/ResizableModal.react.js:61-65 | Viewport 1280×800, size 400×300, offsets 20/20 place the modal at (860, 480). |
| `Geometry.ResizeStep` | src/lib/components/ResizableModal.react.js:128-163 | For every corner, the new size is within the limits when they are ordered, and is the minimum when they cross. Inside the limits, the size follows the pointer exactly. The edges opposite the handle keep their screen position: x + width is fixed for the left corners, x is fixed otherwise; likewise y for the top corners. |
| `Geometry.ResizeWidthIsClampedOutward` | src/lib/components/ResizableModal.react.js:138-160 | Whatever the corner, the new size is the anchored size plus the outward pointer movement, clamped. |
| `Geometry.ResizeMonotone` | src/lib/components/ResizableModal.react.js:138-160 | Moving the pointer further outward never makes the modal smaller. |
| `Geometry.ResizeGrowsOutward` | src/lib/components/ResizableModal.react.js:138-160 | A strictly outward movement from a size below the maximum strictly increases the size. |
| `Geometry.ResizeGrowsOutwardHeight` | src/lib/components/ResizableModal.react.js:138-160 | A strictly outward vertical movement from a height below the maximum strictly increases the height. |
| `Geometry.ResizeAtAnchorIsIdentity` | src/lib/components/ResizableModal.react.js:128-163 | With the pointer back at the anchor, a modal within its limits is unchanged. |
| `Geometry.ResizeTopLeftExample` | src/lib/components/ResizableModal.react.js:139-144 | Top-left resize of 400×300 at (100, 100) by (-50, -30), within the default limits 200-1200 × 150-800, gives 450×330 at (50, 70). |
| `Bounds.Resolve` | src/lib/components/ResizableModal.react.js:263 | Missing sides of a bounds object default to top 0, right the viewport width, bottom the viewport height, left 0. |
| `Bounds.Constrain` | src/lib/components/ResizableModal.react.js:251-269 | With no bounds (or an unsupported string) the point is kept. With `'viewport'` the corner is never left of or above 0, and the modal ends inside the viewport when it fits. A corner past an edge is pulled back exactly onto it: to 0 on the near side, to the viewport size minus the modal size on the far side when the modal fits. With an object, the same holds against its resolved sides. |
| `Bounds.ConstrainKeepsInside` | src/lib/components/ResizableModal.react.js:257-266 | A corner already inside the allowed region is not moved. |
| `Bounds.ConstrainIdempotent` | src/lib/components/ResizableModal.react.js:251-269 | Applying the constraint twice equals applying it once, for every kind of bounds. |
| `Bounds.ViewportIsEmptyRect` | src/lib/components/ResizableModal.react.js:257-265 | `'viewport'` behaves exactly like a bounds object with every side missing. |
| `Bounds.MissingSidesDefault` | src/lib/components/ResizableModal.react.js:263-265 | A missing side constrains exactly as that side given explicitly as its default. |
| `Bounds.ViewportTooNarrow` | src/lib/components/ResizableModal.react.js:259-260 | A modal wider than the viewport gets x = 0, and its right edge passes the viewport's. |
| `Gesture.Closest` | src/lib/components/ResizableModal.react.js:236-242 | `closest` finds the nearest matching element of the pressed element's path, and finds none exactly when no element of the path matches. |
| `Gesture.IsDragHandle` | src/lib/components/ResizableModal.react.js:230-246 | A press may drag iff the modal is draggable and one of these holds: header mode with a header-marked element on the path; modal mode with no resize-marked element on it; custom mode with a custom-marked element on it. |
| `Gesture.ListenerOf` | src/lib/components/ResizableModal.react.js:623-662 | The resize handle carries the resize-start listener (line 661). The drag-start listener is on the header exactly in header mode (line 637) and on the container exactly in modal mode (line 628); the corrected wiring adds the container in custom mode. As rendered, nothing carries it in custom mode. |
| `Gesture.StartResize` | src/lib/components/ResizableModal.react.js:169-188 | A resize start sets the resize flag and records the pointer and the whole geometry, leaving the drag alone. A resize attached while a drag is active runs after the drag's listener. |
| `Gesture.StartDrag` | src/lib/components/ResizableModal.react.js:275-292 | A drag start sets the drag flag and records the pointer's offset from the corner, so corner + offset is the pointer, and the geometry. A drag attached while a resize is active runs after the resize's listener. |
| `Gesture.Bubble` | src/lib/components/ResizableModal.react.js:623-662 | A bubbling mousedown does one of three things: changes nothing, starts a resize, or starts a drag. A resize starts only if resizable and a resize handle is on the path. A drag starts only if the pressed element is a drag handle and an element on the path carries the drag-start listener. When no listener on the path acts, nothing changes. |
| `Gesture.BubbleFirstActing` | src/lib/components/ResizableModal.react.js:169-175 | The press is taken by the first listener on the path that acts, because acting stops propagation. Listeners that decline let the event bubble on. |
| `Gesture.Press` | src/lib/components/ResizableModal.react.js:623-662 | A mousedown leaves the gestures alone, starts a resize or starts a drag, never both at once. A new resize needs `resizable` and a resize handle on the path. A new drag needs `isDragHandle` to accept the pressed element and an element on the path carrying the drag-start listener. A press no listener acts on changes nothing. |
| `Gesture.PressStartsAtMostOne` | src/lib/components/ResizableModal.react.js:172-175 | From no gesture, one press never sets both flags. |
| `Gesture.PressGuards` | src/lib/components/ResizableModal.react.js:275-286 | From no gesture, a resize starts only when `resizable`, and a drag only when `isDragHandle` holds. |
| `Gesture.HeaderPressStartsDrag` | src/lib/components/ResizableModal.react.js:632-637 | In header mode, a press inside the header starts a drag whose anchor offset is pointer − position. |
| `Gesture.ResizeHandleNeverDrags` | src/lib/components/ResizableModal.react.js:237-239 | In modal mode, a press under a resize-marked element never starts a drag. |
| `Gesture.CustomModeNeverDragsAsRendered` | src/lib/components/ResizableModal.react.js:628-637 | As rendered, no press ever starts a drag in custom mode. |
| `Gesture.CustomHandleDroppedAsRendered` | src/lib/components/ResizableModal.react.js:240-242 | A custom-marked press that `isDragHandle` accepts still starts no drag as rendered. |
| `Gesture.CustomHandleStartsDrag` | src/lib/components/ResizableModal.react.js:240-242 | With the container listening in custom mode, a press inside a custom-marked element starts a drag anchored at pointer − position. |
| `Gesture.PressDuringResizeAlsoDrags` | src/lib/components/ResizableModal.react.js:275-280 | A header press during a resize also starts a drag, leaving both flags set. |
| `Gesture.DragTo` | src/lib/components/ResizableModal.react.js:298-308 | A drag move keeps the width and height captured at the start of the drag. |
| `Gesture.DragFollowsPointer` | src/lib/components/ResizableModal.react.js:283-307 | A drag started at pointer p0 and moved to p1 puts the corner at the constraint of start position + (p1 − p0), with the size unchanged. |
| `Gesture.DragExample` | src/lib/components/ResizableModal.react.js:302-307 | Without bounds, a drag from (100, 100) by (30, -10) gives (130, 90). |
| `Gesture.ResizeTo` | src/lib/components/ResizableModal.react.js:194-198 | A resize move from the recorded anchor gives a size within ordered limits. |
| `Gesture.Release` | src/lib/components/ResizableModal.react.js:325-331 | Mouseup ends every active gesture (lines 218-224 for resize): both flags are cleared and the anchors are kept. |
| `Shell.Close` | src/lib/components/ResizableModal.react.js:337-351 | A close reports `onClose` iff `onClose` and `setProps` are truthy. It sends `isOpen: false` iff `setProps` is truthy, always last. |
| `Shell.Dismissal` | src/lib/components/ResizableModal.react.js:365-378 | Escape closes iff key is 'Escape', escape-closable and open. A backdrop click closes iff it targets the backdrop itself, the backdrop is closable and rendered. The close button closes iff rendered. Nothing closes while closed. |
| `Shell.Step` | src/lib/components/ResizableModal.react.js:194-378 | Only a move changes the geometry, and only a press or a release changes the gestures. A press on the open modal sets the gestures to what the bubbling mousedown decides (`Gesture.Press`, with its `resizable` and `isDragHandle` guards) and sends nothing; on a closed modal it does nothing. A key, backdrop or close-button event sends exactly the updates of the close it causes (lines 356-378), and nothing when it causes none or the modal is closed. A release leaves no gesture active. Without `setProps` nothing is sent. A move reports only moves and resizes. With one gesture active, a move is exactly the listener of that gesture, so its report is gated on `onMove && setProps` (line 311) or `onResize && setProps` (line 201). A move with no gesture does nothing. With both, the move listener attached last decides the geometry. |
| `Shell.ResizeMove` | src/lib/components/ResizableModal.react.js:194-212 | During a resize, the new size is within ordered limits. A `Resized` report carrying exactly the new geometry is sent iff resizing and `onResize` and `setProps` are truthy. Otherwise nothing changes. |
| `Shell.DragMove` | src/lib/components/ResizableModal.react.js:298-320 | During a drag, the size stays the one captured at the start. A `Moved` report of the new corner is sent iff dragging and `onMove` and `setProps` are truthy. |
| `Shell.EscapeBehaviour` | src/lib/components/ResizableModal.react.js:365-386 | An Escape keydown leaves the modal state alone. It reports the close iff open, escape-closable, and `onClose` and `setProps` are set. It sends `isOpen: false` iff open, escape-closable and `setProps` is set. |
| `Shell.BackdropBehaviour` | src/lib/components/ResizableModal.react.js:374-378 | A click on a rendered backdrop sends `isOpen: false` iff its target is the backdrop element itself and the backdrop is closable. A click whose target is any other element does not close. |
| `Shell.ResizeMoveReports` | src/lib/components/ResizableModal.react.js:197-211 | A move during a resize reports exactly the new geometry, which is within the limits. |
| `Shell.GestureIgnoresCurrentDims` | src/lib/components/ResizableModal.react.js:128-135 | During a gesture, the next move's outcome does not depend on the current geometry, so owner overrides are replaced by it. |
| `Shell.LaterGestureDecidesMove` | src/lib/components/ResizableModal.react.js:184-185 | A drag started before a resize: one move reports the drag's position and then the resize's geometry (lines 288-289 attach the drag listener first), and the resize's geometry is the one kept. |
| `Shell.Run` | src/lib/components/ResizableModal.react.js:194-378 | The modal's own `isOpen: false` closes it for the rest of the run. A run from a closed modal never sends `isOpen: false`, and any run sends it at most once. A run without `setProps` sends nothing at all. A run with no moves leaves the geometry as it was. A run with no press or release leaves the gestures as they were. |
| `Shell.EscapeTwiceClosesOnce` | src/lib/components/ResizableModal.react.js:380-386 | Two Escape presses with `onClose` and `setProps` send the close report and `isOpen: false` once: the close removes the key listener. |
| `Shell.RunSentWellFormed` | src/lib/components/ResizableModal.react.js:194-351 | In any run of events: nothing is sent without `setProps`; a move report appears only with `onMove` and a resize report only with `onResize`; a close report appears only with `onClose`, always directly followed by `isOpen: false`; every reported size is within ordered limits; every reported move under `'viewport'` has non-negative coordinates. |
| `Shell.RunViewportMovesNonNegative` | src/lib/components/ResizableModal.react.js:257-260 | Under `'viewport'` bounds, every move reported in any run has x ≥ 0 and y ≥ 0. |
| `Shell.RunEndsIdle` | src/lib/components/ResizableModal.react.js:218-224 | A run ending with mouseup leaves no gesture active, whatever came before. |
| `Shell.SyncDims` | src/lib/components/ResizableModal.react.js:389-397 | A truthy size prop replaces the size; a `0` size prop keeps the current size. A coordinate prop replaces the coordinate whenever defined, including 0. An undefined prop keeps the current value; the component itself never sees one, because the default props fill them in. |
| `Shell.SyncZeroAsymmetry` | src/lib/components/ResizableModal.react.js:392-394 | `width: 0` keeps the current width, while `x: 0` moves the modal to x = 0. |
| `Shell.SyncIdempotent` | src/lib/components/ResizableModal.react.js:389-397 | Syncing twice with the same props equals syncing once. |
| `Shell.OwnerChangeSnapsToDefaults` | src/lib/components/ResizableModal.react.js:389-397 | With `x`/`y` never set and the modal dragged to (700, 500), a new `width` moves it back to (100, 100); with `width` never set and the modal resized to 600, a new `x` resets the width to 400. |
| `Shell.Reposition` | src/lib/components/ResizableModal.react.js:400-409 | With an offset defined, the corner moves to the initial position for the props. The far edge on an offset axis is placed at the offset using the props' size. The other axis is reset from its coordinate prop, with a `0` or missing prop giving 100. The current size is kept. With no offset, nothing changes. |
| `Shell.Mount` | src/lib/components/ResizableModal.react.js:389-409 | After mount, with absent props defaulted, the size is the size props with defaults, and an axis with an offset has its far edge at the offset. Without offsets, the coordinate props are used as given (`0` included, default 100). With only the other axis's offset, a `0` coordinate becomes 100. |
| `Shell.MountZeroCoordinate` | src/lib/components/ResizableModal.react.js:389-409 | `x: 0` mounts at x = 0, but at x = 100 once a bottom offset is also given. |
| `Shell.PropsChanged` | src/lib/components/ResizableModal.react.js:388-409 | Props are compared after the defaults are applied. With no placement prop changed, the geometry is unchanged. When a size or coordinate prop changed, the size is the size synced with the defaulted props, and without an offset the result is exactly that sync; an absent coordinate then moves the modal back to 100. When only offsets changed, the size is kept, and with no offset left nothing changes. Any change with an offset set places the corner at the initial position for the new props. |
| `Shell.OffsetsPinFarEdges` | src/lib/components/ResizableModal.react.js:400-409 | After any placement-prop change, an axis with an offset is placed from the props' size. When a size or coordinate prop changed and the width prop is not `0`, the right edge lands exactly at the offset. |
| `Shell.ResizedModalMissesOffset` | src/lib/components/ResizableModal.react.js:63-68 | After a user resize to 600 px, changing only the right offset places the modal as if 400 wide, so its right edge ends 200 px past the offset. |
| `Shell.ZeroWidthMissesOffset` | src/lib/components/ResizableModal.react.js:389-409 | With `width: 0` the kept width and the width the placement assumes differ, and the far edge misses the offset. |

## Findings

| source | as written | input that shows it | evidently intended | confidence | as-written member | corrected member |
|---|---|---|---|---|---|---|
| src/lib/components/ResizableModal.react.js:628-637 | The drag-start listener is attached to the container only when `dragHandle` is `'modal'` and to the header only when it is `'header'`. With `'custom'`, no element carries it, so the `'custom'` branch of `isDragHandle` (line 242) is never reached. | `dragHandle: 'custom'`, `draggable: true`, mousedown on a child marked `data-drag-handle="custom"` inside the modal | The press starts a drag, as the documentation of `dragHandle` (lines 821-827) describes. `Gesture.Wiring` selects the wiring: `AsRendered` is the code as written, `CustomAware` also attaches the drag-start listener to the container in custom mode. `Shell.Step` and `Shell.Run` take the wiring as a parameter, and their lemmas hold for both. | high; not executed | `Gesture.CustomModeNeverDragsAsRendered` | `Gesture.CustomHandleStartsDrag` |

## Left out

- Listener attach and detach on `document`, `document.body.style` cursor and `userSelect`, and `preventDefault`/`stopPropagation`. Listener ownership is the gesture flags. Stopping propagation is the "first acting listener takes the press" rule of `Gesture.Bubble`.
- Rendering: JSX, styles, resize-icon rotation, close-button markup, `getResizeHandleStyles`. The model keeps only what rendering decides about behaviour: nothing renders while closed; the backdrop exists only with `modal && backdrop`; the close button only with a title and `showCloseButton`.
- `Date.now()` is the `now` parameter of each event. `window.innerWidth`/`innerHeight` is the `Viewport` parameter.
- Floating-point pixel values, `NaN` and `null` props. Pixels are integers. An absent `width`, `height`, `x` or `y` takes its default prop (`Geometry.WithDefaults`); an absent offset, `dragBounds` side or callback is `Undefined` or false.
- Unmounting during a gesture. The source does not remove the document listeners then, and the model has no unmount event.
- Which mouse button is pressed. The source does not check it.
- Callback props changing during a gesture. The attached move listener gates its report on `onResize`/`onMove`/`setProps`, and applies `dragBounds`, as seen by the render in which `handleResizeStart`/`handleDragStart` was last memoized. Their dependency lists (lines 188 and 292) omit `onMove`, `onResize`, `setProps`, `dragBounds` and the limits `minWidth`, `maxWidth`, `minHeight` and `maxHeight`, which reach the resize listener through `calculateNewDimensions` (line 163). So such a render can be older than the press: after a change of limits alone, a resize still clamps to the old limits until the geometry changes. The model keeps the configuration fixed during a run, except that the modal's own `isOpen: false` closes it.
- A second press of the same kind during a gesture. When the geometry has changed since the first press, it attaches a second listener pair next to the first, so each move reports twice. The model records one anchor per gesture kind and keeps the first attachment order.
- The resizable split panels (`Panel`, `PanelGroup`). They pass props through to an external library that holds the layout algorithm. The demo app and re-exports are left out too.

=== FILE: bounds.dfy ===
/** Where a drag may put the modal: the `dragBounds` prop and the clamp of
    a proposed top-left corner into it. */
module Bounds {
  import opened Props
  import opened Geometry

  /** An explicit bounds object; any side may be missing. */
  datatype Rect = Rect(top: Opt<int>, right: Opt<int>, bottom: Opt<int>, left: Opt<int>)

  /** The `dragBounds` prop. `NoBounds` is any falsy value (the default
      `null`); `OtherString` is a truthy string other than `'viewport'`,
      which is neither the viewport case nor an object. */
  datatype DragBounds = NoBounds | ViewportBounds | RectBounds(rect: Rect) | OtherString

  /** A rectangle with every side known. */
  datatype Box = Box(top: int, right: int, bottom: int, left: int)

  /** Missing sides default to the viewport's edges: top and left to 0,
      right to the viewport width, bottom to the viewport height. */
  function Resolve(r: Rect, vp: Viewport): (b: Box)
    ensures b.top == (if r.top.Defined? then r.top.value else 0)
    ensures b.left == (if r.left.Defined? then r.left.value else 0)
    ensures b.right == (if r.right.Defined? then r.right.value else vp.innerWidth)
    ensures b.bottom == (if r.bottom.Defined? then r.bottom.value else vp.innerHeight)
  {
    Box(Else(r.top, 0), Else(r.right, vp.innerWidth), Else(r.bottom, vp.innerHeight), Else(r.left, 0))
  }

  /** Keeps a modal of the given size inside the box when it fits: the left
      edge is at least `left` and the right edge at most `right`. */
  function ClampInto(b: Box, width: int, height: int, p: Point): (r: Point)
  {
    Point(Clamp(b.left, b.right - width, p.x), Clamp(b.top, b.bottom - height, p.y))
  }

  /** The proposed top-left corner after applying the drag bounds, for a
      modal of the given size. */
  function Constrain(bounds: DragBounds, vp: Viewport, width: int, height: int, p: Point): (r: Point)
    // no bounds, or bounds of an unsupported kind: the point is kept
    ensures bounds.NoBounds? || bounds.OtherString? ==> r == p
    // the viewport: never past the top-left corner, and fully inside when the modal fits
    ensures bounds.ViewportBounds? ==> 0 <= r.x && 0 <= r.y
    ensures bounds.ViewportBounds? && width <= vp.innerWidth ==> r.x + width <= vp.innerWidth
    ensures bounds.ViewportBounds? && height <= vp.innerHeight ==> r.y + height <= vp.innerHeight
    // a rectangle: the same, against its resolved sides
    ensures bounds.RectBounds? ==> Resolve(bounds.rect, vp).left <= r.x && Resolve(bounds.rect, vp).top <= r.y
    ensures bounds.RectBounds? && width <= Resolve(bounds.rect, vp).right - Resolve(bounds.rect, vp).left ==>
              r.x + width <= Resolve(bounds.rect, vp).right
    ensures bounds.RectBounds? && height <= Resolve(bounds.rect, vp).bottom - Resolve(bounds.rect, vp).top ==>
              r.y + height <= Resolve(bounds.rect, vp).bottom
    // past an edge the corner is pulled back exactly onto it
    ensures bounds.ViewportBounds? && p.x < 0 ==> r.x == 0
    ensures bounds.ViewportBounds? && p.y < 0 ==> r.y == 0
    ensures bounds.ViewportBounds? && 0 <= vp.innerWidth - width < p.x ==> r.x == vp.innerWidth - width
    ensures bounds.ViewportBounds? && 0 <= vp.innerHeight - height < p.y ==> r.y == vp.innerHeight - height
    ensures bounds.RectBounds? && p.x < Resolve(bounds.rect, vp).left ==> r.x == Resolve(bounds.rect, vp).left
    ensures bounds.RectBounds? && p.y < Resolve(bounds.rect, vp).top ==> r.y == Resolve(bounds.rect, vp).top
    ensures bounds.RectBounds? && Resolve(bounds.rect, vp).left <= Resolve(bounds.rect, vp).right - width < p.x ==>
              r.x == Resolve(bounds.rect, vp).right - width
    ensures bounds.RectBounds? && Resolve(bounds.rect, vp).top <= Resolve(bounds.rect, vp).bottom - height < p.y ==>
              r.y == Resolve(bounds.rect, vp).bottom - height
  {
    match bounds
    case NoBounds => p
    case ViewportBounds =>
      Point(Clamp(0, vp.innerWidth - width, p.x), Clamp(0, vp.innerHeight - height, p.y))
    case RectBounds(rect) => ClampInto(Resolve(rect, vp), width, height, p)
    case OtherString => p
  }

  /** A point already inside the allowed region is not moved. */
  lemma ConstrainKeepsInside(bounds: DragBounds, vp: Viewport, width: int, height: int, p: Point)
    requires bounds.ViewportBounds? ==> 0 <= p.x && p.x + width <= vp.innerWidth && 0 <= p.y && p.y + height <= vp.innerHeight
    requires bounds.RectBounds? ==>
               var b := Resolve(bounds.rect, vp);
               b.left <= p.x && p.x + width <= b.right && b.top <= p.y && p.y + height <= b.bottom
    ensures Constrain(bounds, vp, width, height, p) == p
  {
  }

  /** Constraining an already constrained point changes nothing. */
  lemma ConstrainIdempotent(bounds: DragBounds, vp: Viewport, width: int, height: int, p: Point)
    ensures var q := Constrain(bounds, vp, width, height, p);
            Constrain(bounds, vp, width, height, q) == q
  {
  }

  /** `'viewport'` behaves exactly like a bounds object with every side
      missing. */
  lemma ViewportIsEmptyRect(vp: Viewport, width: int, height: int, p: Point)
    ensures Constrain(ViewportBounds, vp, width, height, p)
         == Constrain(RectBounds(Rect(Undefined, Undefined, Undefined, Undefined)), vp, width, height, p)
  {
  }

  /** A missing side and that side given as its default bound the modal in
      the same way. */
  lemma MissingSidesDefault(vp: Viewport, r: Rect, width: int, height: int, p: Point)
    ensures Constrain(RectBounds(r), vp, width, height, p)
         == Constrain(RectBounds(Rect(Defined(Else(r.top, 0)), Defined(Else(r.right, vp.innerWidth)),
                                      Defined(Else(r.bottom, vp.innerHeight)), Defined(Else(r.left, 0)))),
                      vp, width, height, p)
  {
  }

  /** A modal wider than the viewport is pinned to the left edge and sticks
      out on the right: the lower bound wins the clamp. */
  lemma ViewportTooNarrow(vp: Viewport, width: int, height: int, p: Point)
    requires vp.innerWidth < width
    ensures Constrain(ViewportBounds, vp, width, height, p).x == 0
    ensures Constrain(ViewportBounds, vp, width, height, p).x + width > vp.innerWidth
  {
  }
}

=== FILE: geometry.dfy ===
/** The modal's geometry: where it is first placed, and how one pointer
    position during a resize gesture turns into new width, height and
    position. */
module Geometry {
  import opened Props

  datatype Point = Point(x: int, y: int)

  /** The rendered geometry: size and top-left corner, in pixels. */
  datatype Dims = Dims(width: int, height: int, x: int, y: int)

  /** `window.innerWidth` and `window.innerHeight`, read when needed. */
  datatype Viewport = Viewport(innerWidth: int, innerHeight: int)

  datatype SizeLimits = SizeLimits(minWidth: int, maxWidth: int, minHeight: int, maxHeight: int)
  {
    predicate Ordered() { minWidth <= maxWidth && minHeight <= maxHeight }
  }

  const DefaultWidth := 400
  const DefaultHeight := 300
  const DefaultCoordinate := 100
  const DefaultLimits := SizeLimits(200, 1200, 150, 800)

  /** The placement props: size, absolute position and edge offsets. */
  datatype Placement = Placement(width: Opt<int>, height: Opt<int>,
                                 x: Opt<int>, y: Opt<int>,
                                 rightOffset: Opt<int>, bottomOffset: Opt<int>)
  {
    /** `width || 400` */
    function Width(): int { Or(width, DefaultWidth) }
    /** `height || 300` */
    function Height(): int { Or(height, DefaultHeight) }
    predicate HasOffset() { rightOffset.Defined? || bottomOffset.Defined? }
  }

  /** The placement props as the component receives them: an absent
      `width`, `height`, `x` or `y` is filled in from the component's
      default props (400, 300, 100, 100); the offsets default to
      `undefined` and stay absent. */
  function WithDefaults(p: Placement): (q: Placement)
    ensures q.width.Defined? && q.height.Defined? && q.x.Defined? && q.y.Defined?
    ensures q.rightOffset == p.rightOffset && q.bottomOffset == p.bottomOffset
    ensures p.width.Defined? ==> q.width == p.width
    ensures p.height.Defined? ==> q.height == p.height
    ensures p.x.Defined? ==> q.x == p.x
    ensures p.y.Defined? ==> q.y == p.y
    ensures p.width.Undefined? ==> q.width == Defined(DefaultWidth)
    ensures p.height.Undefined? ==> q.height == Defined(DefaultHeight)
    ensures p.x.Undefined? ==> q.x == Defined(DefaultCoordinate)
    ensures p.y.Undefined? ==> q.y == Defined(DefaultCoordinate)
    ensures q.Width() == p.Width() && q.Height() == p.Height()
  {
    Placement(Defined(Else(p.width, DefaultWidth)), Defined(Else(p.height, DefaultHeight)),
              Defined(Else(p.x, DefaultCoordinate)), Defined(Else(p.y, DefaultCoordinate)),
              p.rightOffset, p.bottomOffset)
  }

  /** The defaults agree with the fallbacks of the placement rule, so the
      initial placement is the same with or without them. */
  lemma DefaultsKeepInitialPlacement(vp: Viewport, p: Placement)
    ensures InitialPosition(vp, WithDefaults(p)) == InitialPosition(vp, p)
    ensures WithDefaults(WithDefaults(p)) == WithDefaults(p)
  {
  }

  /** The top-left corner the modal is placed at. Each axis is independent:
      an offset, when given, puts the far edge that many pixels inside the
      viewport's far edge; otherwise the coordinate prop is used, where `0`
      counts as missing and becomes 100. */
  function InitialPosition(vp: Viewport, p: Placement): (r: Point)
    ensures p.rightOffset.Defined? ==> r.x + p.Width() + p.rightOffset.value == vp.innerWidth
    ensures p.rightOffset.Undefined? && p.x.Defined? && p.x.value != 0 ==> r.x == p.x.value
    ensures p.rightOffset.Undefined? && (p.x.Undefined? || p.x.value == 0) ==> r.x == DefaultCoordinate
    ensures p.bottomOffset.Defined? ==> r.y + p.Height() + p.bottomOffset.value == vp.innerHeight
    ensures p.bottomOffset.Undefined? && p.y.Defined? && p.y.value != 0 ==> r.y == p.y.value
    ensures p.bottomOffset.Undefined? && (p.y.Undefined? || p.y.value == 0) ==> r.y == DefaultCoordinate
  {
    if p.rightOffset.Defined? && p.bottomOffset.Defined? then
      Point(vp.innerWidth - p.Width() - p.rightOffset.value,
            vp.innerHeight - p.Height() - p.bottomOffset.value)
    else if p.rightOffset.Defined? then
      Point(vp.innerWidth - p.Width() - p.rightOffset.value, Or(p.y, DefaultCoordinate))
    else if p.bottomOffset.Defined? then
      Point(Or(p.x, DefaultCoordinate), vp.innerHeight - p.Height() - p.bottomOffset.value)
    else
      Point(Or(p.x, DefaultCoordinate), Or(p.y, DefaultCoordinate))
  }

  /** The geometry the modal state starts from, before any effect runs. */
  function InitialDims(vp: Viewport, p: Placement): (r: Dims)
    ensures r.width == p.Width() && r.height == p.Height()
    ensures r.width != 0 && r.height != 0
    ensures Point(r.x, r.y) == InitialPosition(vp, p)
  {
    var pos := InitialPosition(vp, p);
    Dims(p.Width(), p.Height(), pos.x, pos.y)
  }

  /** A 1280x800 viewport, a 400x300 modal and offsets of 20 place the
      modal at (860, 480). */
  lemma InitialPositionExample()
    ensures InitialPosition(Viewport(1280, 800),
                            Placement(Defined(400), Defined(300), Undefined, Undefined,
                                      Defined(20), Defined(20))) == Point(860, 480)
  {
  }

  /** The string prop `resizeCorner`; any other value behaves like
      bottom-right. */
  datatype Corner = TopLeft | TopRight | BottomLeft | BottomRight | OtherCorner
  {
    /** The handle sits on the left edge, so that edge follows the pointer. */
    predicate MovesLeftEdge() { this == TopLeft || this == BottomLeft }
    /** The handle sits on the top edge, so that edge follows the pointer. */
    predicate MovesTopEdge() { this == TopLeft || this == TopRight }
  }

  /** What a resize gesture remembers from its start: the pointer and the
      whole geometry as it was then. */
  datatype ResizeAnchor = ResizeAnchor(pointer: Point, dims: Dims)

  /** How far the pointer has moved outward from the handle's edge: a
      positive value asks for a larger modal. */
  function OutwardX(c: Corner, a: ResizeAnchor, p: Point): (r: int)
  {
    if c.MovesLeftEdge() then a.pointer.x - p.x else p.x - a.pointer.x
  }

  /** The same on the vertical axis. */
  function OutwardY(c: Corner, a: ResizeAnchor, p: Point): (r: int)
  {
    if c.MovesTopEdge() then a.pointer.y - p.y else p.y - a.pointer.y
  }

  /** One resize step: the anchored size plus the outward pointer movement,
      clamped to the limits; only the edges that carry the handle move, so
      the opposite edges keep their screen position. */
  function ResizeStep(c: Corner, lim: SizeLimits, a: ResizeAnchor, p: Point): (r: Dims)
    // the limits hold whenever they are consistent; crossed limits give the minimum
    ensures lim.minWidth <= r.width && lim.minHeight <= r.height
    ensures lim.minWidth <= lim.maxWidth ==> r.width <= lim.maxWidth
    ensures lim.minHeight <= lim.maxHeight ==> r.height <= lim.maxHeight
    ensures lim.maxWidth < lim.minWidth ==> r.width == lim.minWidth
    ensures lim.maxHeight < lim.minHeight ==> r.height == lim.minHeight
    // within the limits the size follows the pointer exactly
    ensures lim.minWidth <= a.dims.width + OutwardX(c, a, p) <= lim.maxWidth ==>
              r.width == a.dims.width + OutwardX(c, a, p)
    ensures lim.minHeight <= a.dims.height + OutwardY(c, a, p) <= lim.maxHeight ==>
              r.height == a.dims.height + OutwardY(c, a, p)
    // the anchored edges stay where they were
    ensures c.MovesLeftEdge() ==> r.x + r.width == a.dims.x + a.dims.width
    ensures !c.MovesLeftEdge() ==> r.x == a.dims.x
    ensures c.MovesTopEdge() ==> r.y + r.height == a.dims.y + a.dims.height
    ensures !c.MovesTopEdge() ==> r.y == a.dims.y
  {
    var dx := p.x - a.pointer.x;
    var dy := p.y - a.pointer.y;
    var d := a.dims;
    match c
    case TopLeft =>
      var w := Clamp(lim.minWidth, lim.maxWidth, d.width - dx);
      var h := Clamp(lim.minHeight, lim.maxHeight, d.height - dy);
      Dims(w, h, d.x + (d.width - w), d.y + (d.height - h))
    case TopRight =>
      var w := Clamp(lim.minWidth, lim.maxWidth, d.width + dx);
      var h := Clamp(lim.minHeight, lim.maxHeight, d.height - dy);
      Dims(w, h, d.x, d.y + (d.height - h))
    case BottomLeft =>
      var w := Clamp(lim.minWidth, lim.maxWidth, d.width - dx);
      var h := Clamp(lim.minHeight, lim.maxHeight, d.height + dy);
      Dims(w, h, d.x + (d.width - w), d.y)
    case _ =>
      var w := Clamp(lim.minWidth, lim.maxWidth, d.width + dx);
      var h := Clamp(lim.minHeight, lim.maxHeight, d.height + dy);
      Dims(w, h, d.x, d.y)
  }

  /** Moving the pointer further outward never makes the modal smaller. */
  lemma ResizeMonotone(c: Corner, lim: SizeLimits, a: ResizeAnchor, p: Point, q: Point)
    requires OutwardX(c, a, p) <= OutwardX(c, a, q)
    requires OutwardY(c, a, p) <= OutwardY(c, a, q)
    ensures ResizeStep(c, lim, a, p).width <= ResizeStep(c, lim, a, q).width
    ensures ResizeStep(c, lim, a, p).height <= ResizeStep(c, lim, a, q).height
  {
  }

  /** The resized size is the clamped outward size, whatever the corner. */
  lemma ResizeWidthIsClampedOutward(c: Corner, lim: SizeLimits, a: ResizeAnchor, p: Point)
    ensures ResizeStep(c, lim, a, p).width == Clamp(lim.minWidth, lim.maxWidth, a.dims.width + OutwardX(c, a, p))
    ensures ResizeStep(c, lim, a, p).height == Clamp(lim.minHeight, lim.maxHeight, a.dims.height + OutwardY(c, a, p))
  {
  }

  /** A strictly outward movement from a size below the maximum strictly
      grows the modal on that axis. */
  lemma ResizeGrowsOutward(c: Corner, lim: SizeLimits, a: ResizeAnchor, p: Point)
    requires lim.minWidth <= a.dims.width < lim.maxWidth
    requires OutwardX(c, a, p) > 0
    ensures ResizeStep(c, lim, a, p).width > a.dims.width
  {
  }

  /** The same on the vertical axis: a strictly outward movement from a
      height below the maximum strictly grows the height. */
  lemma ResizeGrowsOutwardHeight(c: Corner, lim: SizeLimits, a: ResizeAnchor, p: Point)
    requires lim.minHeight <= a.dims.height < lim.maxHeight
    requires OutwardY(c, a, p) > 0
    ensures ResizeStep(c, lim, a, p).height > a.dims.height
  {
  }

  /** With the pointer back at the anchor, a modal inside its limits is
      returned exactly as it was. */
  lemma ResizeAtAnchorIsIdentity(c: Corner, lim: SizeLimits, a: ResizeAnchor)
    requires lim.minWidth <= a.dims.width <= lim.maxWidth
    requires lim.minHeight <= a.dims.height <= lim.maxHeight
    ensures ResizeStep(c, lim, a, a.pointer) == a.dims
  {
  }

  /** Resizing from the top-left corner of a 400x300 modal at (100, 100)
      with the pointer moved by (-50, -30) gives 450x330 at (50, 70). */
  lemma ResizeTopLeftExample()
    ensures ResizeStep(TopLeft, DefaultLimits,
                       ResizeAnchor(Point(500, 500), Dims(400, 300, 100, 100)),
                       Point(450, 470)) == Dims(450, 330, 50, 70)
  {
  }
}

=== FILE: gesture.dfy ===
/** Drag and resize gestures: which pressed element starts which gesture,
    the two gesture flags with the anchors captured at the start, and what
    a pointer move during each gesture computes. */
module Gesture {
  import opened Props
  import opened Geometry
  import opened Bounds

  /** The `dragHandle` prop; any other string never drags. */
  datatype DragHandleMode = HeaderMode | ModalMode | CustomMode | OtherMode

  /** A marker attribute an element inside the modal's content may carry. */
  datatype Mark = Unmarked | HeaderMark | CustomMark | ResizeMark

  /** An element on the path from the pressed element up to the document. */
  datatype Element =
    | HeaderBar          // the title bar, marked `data-drag-handle="header"`
    | ResizeHandle       // the corner handle, marked `data-resize-handle`
    | Container          // the modal's outer element
    | Child(mark: Mark)  // any other element, with or without a marker

  /** The three attribute selectors the drag-handle test looks for. */
  datatype Selector = HeaderSelector | CustomSelector | ResizeSelector

  predicate Matches(e: Element, s: Selector)
  {
    match s
    case HeaderSelector => e == HeaderBar || e == Child(HeaderMark)
    case CustomSelector => e == Child(CustomMark)
    case ResizeSelector => e == ResizeHandle || e == Child(ResizeMark)
  }

  /** Some element of the pressed element's path matches the selector. */
  predicate HasMatch(path: seq<Element>, s: Selector)
  {
    exists j :: 0 <= j < |path| && Matches(path[j], s)
  }

  /** `element.closest(selector)`: the nearest element of the path, the
      pressed element itself first, that matches. */
  function Closest(path: seq<Element>, s: Selector): (r: Opt<nat>)
    ensures r.Defined? ==> r.value < |path| && Matches(path[r.value], s)
    ensures r.Defined? ==> forall j :: 0 <= j < r.value ==> !Matches(path[j], s)
    ensures r.Undefined? <==> !HasMatch(path, s)
  {
    if |path| == 0 then Undefined
    else if Matches(path[0], s) then Defined(0)
    else
      match Closest(path[1..], s)
      case Undefined =>
        assert forall j :: 1 <= j < |path| ==> path[j] == path[1..][j - 1];
        Undefined
      case Defined(i) => Defined(i + 1)
  }

  /** Whether a press on the first element of `path` may start a drag. */
  function IsDragHandle(draggable: bool, mode: DragHandleMode, path: seq<Element>): (r: bool)
    ensures r <==> draggable && (
                     || (mode == HeaderMode && HasMatch(path, HeaderSelector))
                     || (mode == ModalMode && !HasMatch(path, ResizeSelector))
                     || (mode == CustomMode && HasMatch(path, CustomSelector)))
  {
    if !draggable then false
    else
      match mode
      case HeaderMode => Closest(path, HeaderSelector).Defined?
      case ModalMode => Closest(path, ResizeSelector).Undefined?
      case CustomMode => Closest(path, CustomSelector).Defined?
      case OtherMode => false
  }

  /** The props the gestures read. */
  datatype GestureConfig = GestureConfig(draggable: bool, dragHandle: DragHandleMode, resizable: bool,
                                         corner: Corner, limits: SizeLimits, bounds: DragBounds)

  /** What a drag remembers from its start: the pointer's offset from the
      top-left corner, and the whole geometry as it was then. */
  datatype DragAnchor = DragAnchor(offset: Point, dims: Dims)

  /** The `isDragging` and `isResizing` flags with the anchors recorded at
      the start of each gesture. A flag is set exactly while the gesture's
      document-wide move and release listeners are attached. `dragFirst`
      records whether the drag's move listener was attached before the
      resize's; it matters only while both are attached, because the
      document then runs the move listeners in the order they were added. */
  datatype GestureState = GestureState(isDragging: bool, isResizing: bool, dragFirst: bool,
                                       drag: DragAnchor, resize: ResizeAnchor)
  {
    predicate Idle() { !isDragging && !isResizing }
  }

  const Origin := Point(0, 0)
  const NoGesture := GestureState(false, false, false, DragAnchor(Origin, Dims(0, 0, 0, 0)),
                                  ResizeAnchor(Origin, Dims(0, 0, 0, 0)))

  /** `handleDragStart` once it acts: the drag flag is set, and the anchor
      records the pointer's offset from the corner and the geometry. A drag
      listener attached while a resize is in progress runs after it. */
  function StartDrag(g: GestureState, dims: Dims, pointer: Point): (r: GestureState)
    ensures r.isDragging && r.isResizing == g.isResizing && r.resize == g.resize
    ensures Point(r.drag.offset.x + dims.x, r.drag.offset.y + dims.y) == pointer && r.drag.dims == dims
    ensures !g.isDragging ==> (r.dragFirst <==> !g.isResizing)
    ensures g.isDragging ==> r.dragFirst == g.dragFirst
  {
    g.(isDragging := true,
       dragFirst := if g.isDragging then g.dragFirst else !g.isResizing,
       drag := DragAnchor(Point(pointer.x - dims.x, pointer.y - dims.y), dims))
  }

  /** `handleResizeStart` once it acts: the resize flag is set and the
      anchor records the pointer and the geometry. A resize listener
      attached while a drag is in progress runs after it. */
  function StartResize(g: GestureState, dims: Dims, pointer: Point): (r: GestureState)
    ensures r.isResizing && r.isDragging == g.isDragging && r.drag == g.drag
    ensures r.resize.pointer == pointer && r.resize.dims == dims
    ensures !g.isResizing ==> (r.dragFirst <==> g.isDragging)
    ensures g.isResizing ==> r.dragFirst == g.dragFirst
  {
    g.(isResizing := true,
       dragFirst := if g.isResizing then g.dragFirst else g.isDragging,
       resize := ResizeAnchor(pointer, dims))
  }

  /** The mousedown listener an element carries. */
  datatype Listener = NoListener | ResizeStartListener | DragStartListener

  /** How the drag-start listener is attached: as rendered (to the header in
      header mode and to the container in modal mode), or also to the
      container in custom mode. */
  datatype Wiring = AsRendered | CustomAware

  function ListenerOf(cfg: GestureConfig, w: Wiring, e: Element): (r: Listener)
    ensures r == ResizeStartListener <==> e == ResizeHandle
    ensures r == DragStartListener <==>
              || (e == HeaderBar && cfg.dragHandle == HeaderMode)
              || (e == Container && cfg.dragHandle == ModalMode)
              || (e == Container && w == CustomAware && cfg.dragHandle == CustomMode)
    ensures w == AsRendered && cfg.dragHandle == CustomMode ==> r != DragStartListener
  {
    match e
    case ResizeHandle => ResizeStartListener
    case HeaderBar => if cfg.dragHandle == HeaderMode then DragStartListener else NoListener
    case Container =>
      if cfg.dragHandle == ModalMode || (w == CustomAware && cfg.dragHandle == CustomMode)
      then DragStartListener else NoListener
    case Child(_) => NoListener
  }

  /** The listener starts its gesture, which also stops the event from
      bubbling further; otherwise it returns and the event bubbles on. */
  predicate Acts(cfg: GestureConfig, w: Wiring, e: Element, path: seq<Element>)
  {
    match ListenerOf(cfg, w, e)
    case NoListener => false
    case ResizeStartListener => cfg.resizable
    case DragStartListener => IsDragHandle(cfg.draggable, cfg.dragHandle, path)
  }

  function StartWith(l: Listener, g: GestureState, dims: Dims, pointer: Point): (r: GestureState)
  {
    match l
    case NoListener => g
    case ResizeStartListener => StartResize(g, dims, pointer)
    case DragStartListener => StartDrag(g, dims, pointer)
  }

  /** A mousedown bubbling from `path[i]` outward: the first listener that
      acts starts its gesture; a press no listener takes changes nothing. */
  function Bubble(cfg: GestureConfig, w: Wiring, g: GestureState, dims: Dims,
                  path: seq<Element>, i: nat, pointer: Point): (r: GestureState)
    requires i <= |path|
    ensures r == g || r == StartResize(g, dims, pointer) || r == StartDrag(g, dims, pointer)
    ensures r != g && r == StartResize(g, dims, pointer) ==>
              cfg.resizable && exists j :: i <= j < |path| && path[j] == ResizeHandle
    ensures r != g && r == StartDrag(g, dims, pointer) ==>
              IsDragHandle(cfg.draggable, cfg.dragHandle, path)
    // a new drag needs an element on the path that carries the drag-start listener
    ensures r.isDragging && !g.isDragging ==>
              exists j :: i <= j < |path| && ListenerOf(cfg, w, path[j]) == DragStartListener
    // a press no listener on the path acts on changes nothing
    ensures (forall j :: i <= j < |path| ==> !Acts(cfg, w, path[j], path)) ==> r == g
    decreases |path| - i
  {
    if i == |path| then g
    else if Acts(cfg, w, path[i], path) then StartWith(ListenerOf(cfg, w, path[i]), g, dims, pointer)
    else Bubble(cfg, w, g, dims, path, i + 1, pointer)
  }

  /** A mousedown on `path[0]` with the pointer at `pointer`: it leaves the
      gestures alone, starts a resize, or starts a drag, each start only
      under its listener's guard. */
  function Press(cfg: GestureConfig, w: Wiring, g: GestureState, dims: Dims,
                 path: seq<Element>, pointer: Point): (r: GestureState)
    ensures r == g || r == StartResize(g, dims, pointer) || r == StartDrag(g, dims, pointer)
    ensures r.isResizing && !g.isResizing ==>
              cfg.resizable && exists j :: 0 <= j < |path| && path[j] == ResizeHandle
    ensures r.isDragging && !g.isDragging ==> IsDragHandle(cfg.draggable, cfg.dragHandle, path)
    ensures r.isDragging && !g.isDragging ==>
              exists j :: 0 <= j < |path| && ListenerOf(cfg, w, path[j]) == DragStartListener
    ensures (forall j :: 0 <= j < |path| ==> !Acts(cfg, w, path[j], path)) ==> r == g
    ensures !(r.isResizing && !g.isResizing && r.isDragging && !g.isDragging)
  {
    Bubble(cfg, w, g, dims, path, 0, pointer)
  }

  /** The press is taken by the first element on its path whose listener
      acts. */
  lemma {:induction false} BubbleFirstActing(cfg: GestureConfig, w: Wiring, g: GestureState, dims: Dims,
                                             path: seq<Element>, i: nat, k: nat, pointer: Point)
    requires i <= k < |path|
    requires Acts(cfg, w, path[k], path)
    requires forall j :: i <= j < k ==> !Acts(cfg, w, path[j], path)
    ensures Bubble(cfg, w, g, dims, path, i, pointer) == StartWith(ListenerOf(cfg, w, path[k]), g, dims, pointer)
    decreases k - i
  {
    if i < k {
      BubbleFirstActing(cfg, w, g, dims, path, i + 1, k, pointer);
    }
  }

  /** From no gesture, one press starts at most one gesture. */
  lemma PressStartsAtMostOne(cfg: GestureConfig, w: Wiring, g: GestureState, dims: Dims,
                             path: seq<Element>, pointer: Point)
    requires g.Idle()
    ensures var r := Press(cfg, w, g, dims, path, pointer);
            !(r.isDragging && r.isResizing)
  {
  }

  /** A resize starts only when the modal is resizable, and a drag only
      when the pressed element is a drag handle. */
  lemma PressGuards(cfg: GestureConfig, w: Wiring, g: GestureState, dims: Dims,
                    path: seq<Element>, pointer: Point)
    requires g.Idle()
    ensures Press(cfg, w, g, dims, path, pointer).isResizing ==> cfg.resizable
    ensures Press(cfg, w, g, dims, path, pointer).isDragging ==>
              cfg.draggable && IsDragHandle(cfg.draggable, cfg.dragHandle, path)
  {
  }

  /** In header mode, a press inside the header starts a drag that
      remembers the pointer's offset from the modal's corner. */
  lemma HeaderPressStartsDrag(cfg: GestureConfig, w: Wiring, g: GestureState, dims: Dims,
                              path: seq<Element>, k: nat, pointer: Point)
    requires cfg.draggable && cfg.dragHandle == HeaderMode
    requires k < |path| && path[k] == HeaderBar
    requires forall j :: 0 <= j < k ==> path[j].Child?
    ensures var r := Press(cfg, w, g, dims, path, pointer);
            r.isDragging && r.drag == DragAnchor(Point(pointer.x - dims.x, pointer.y - dims.y), dims)
  {
    BubbleFirstActing(cfg, w, g, dims, path, 0, k, pointer);
  }

  /** In modal mode, a press anywhere under the resize handle never starts a
      drag. */
  lemma ResizeHandleNeverDrags(cfg: GestureConfig, w: Wiring, g: GestureState, dims: Dims,
                                                  path: seq<Element>, i: nat, pointer: Point)
    requires cfg.dragHandle == ModalMode
    requires i <= |path|
    requires HasMatch(path, ResizeSelector)
    ensures var r := Bubble(cfg, w, g, dims, path, i, pointer);
            r.isDragging == g.isDragging && r.drag == g.drag
    decreases |path| - i
  {
  }

  /** As rendered, custom mode never starts a drag: no element carries the
      drag-start listener in that mode. */
  lemma {:induction false} CustomModeNeverDragsAsRendered(cfg: GestureConfig, g: GestureState, dims: Dims,
                                                          path: seq<Element>, i: nat, pointer: Point)
    requires cfg.dragHandle == CustomMode
    requires i <= |path|
    ensures var r := Bubble(cfg, AsRendered, g, dims, path, i, pointer);
            r.isDragging == g.isDragging && r.drag == g.drag
    decreases |path| - i
  {
    if i < |path| && !Acts(cfg, AsRendered, path[i], path) {
      CustomModeNeverDragsAsRendered(cfg, g, dims, path, i + 1, pointer);
    }
  }

  /** A concrete press the rendered wiring drops: a custom-marked child of
      the container, draggable, in custom mode. */
  lemma CustomHandleDroppedAsRendered()
    ensures var cfg := GestureConfig(true, CustomMode, true, BottomRight, DefaultLimits, NoBounds);
            var path := [Child(CustomMark), Container];
            IsDragHandle(cfg.draggable, cfg.dragHandle, path)
            && !Press(cfg, AsRendered, NoGesture, Dims(400, 300, 100, 100), path, Point(150, 110)).isDragging
  {
  }

  /** With the container listening in custom mode, a press inside a
      custom-marked element starts a drag, provided no resize handle or
      other container lies between it and the container. */
  lemma CustomHandleStartsDrag(cfg: GestureConfig, g: GestureState, dims: Dims,
                               path: seq<Element>, k: nat, pointer: Point)
    requires cfg.draggable && cfg.dragHandle == CustomMode
    requires HasMatch(path, CustomSelector)
    requires k < |path| && path[k] == Container
    requires forall j :: 0 <= j < k ==> path[j] != Container && path[j] != ResizeHandle
    ensures var r := Press(cfg, CustomAware, g, dims, path, pointer);
            r.isDragging && r.drag == DragAnchor(Point(pointer.x - dims.x, pointer.y - dims.y), dims)
  {
    BubbleFirstActing(cfg, CustomAware, g, dims, path, 0, k, pointer);
  }

  /** Nothing stops a second press during a resize from starting a drag as
      well; both flags are then set. */
  lemma PressDuringResizeAlsoDrags()
    ensures var cfg := GestureConfig(true, HeaderMode, true, BottomRight, DefaultLimits, NoBounds);
            var d := Dims(400, 300, 100, 100);
            var g := StartResize(NoGesture, d, Point(500, 400));
            var r := Press(cfg, AsRendered, g, d, [HeaderBar], Point(150, 110));
            r.isDragging && r.isResizing
  {
  }

  /** The geometry during a drag: the pointer minus the recorded offset,
      constrained to the bounds, with the size as it was at the start. */
  function DragTo(cfg: GestureConfig, vp: Viewport, a: DragAnchor, pointer: Point): (r: Dims)
    ensures r.width == a.dims.width && r.height == a.dims.height
  {
    var pos := Constrain(cfg.bounds, vp, a.dims.width, a.dims.height,
                         Point(pointer.x - a.offset.x, pointer.y - a.offset.y));
    a.dims.(x := pos.x, y := pos.y)
  }

  /** A drag moves the modal's corner by exactly the pointer's movement
      since the press, then applies the bounds. */
  lemma DragFollowsPointer(cfg: GestureConfig, vp: Viewport, g: GestureState, dims: Dims,
                           start: Point, now: Point)
    ensures var r := DragTo(cfg, vp, StartDrag(g, dims, start).drag, now);
            Point(r.x, r.y) == Constrain(cfg.bounds, vp, dims.width, dims.height,
                                         Point(dims.x + (now.x - start.x), dims.y + (now.y - start.y)))
            && r.width == dims.width && r.height == dims.height
  {
  }

  /** Without bounds, a drag from (100, 100) with the pointer moved by
      (30, -10) puts the modal at (130, 90). */
  lemma DragExample()
    ensures var cfg := GestureConfig(true, HeaderMode, true, BottomRight, DefaultLimits, NoBounds);
            var d := Dims(400, 300, 100, 100);
            DragTo(cfg, Viewport(1280, 800), StartDrag(NoGesture, d, Point(150, 110)).drag, Point(180, 100))
              == Dims(400, 300, 130, 90)
  {
  }

  /** The geometry during a resize, from the anchor recorded at its start. */
  function ResizeTo(cfg: GestureConfig, a: ResizeAnchor, pointer: Point): (r: Dims)
    ensures cfg.limits.Ordered() ==>
              cfg.limits.minWidth <= r.width <= cfg.limits.maxWidth
              && cfg.limits.minHeight <= r.height <= cfg.limits.maxHeight
  {
    ResizeStep(cfg.corner, cfg.limits, a, pointer)
  }

  /** Mouseup: each gesture whose listeners are attached ends and detaches
      them. The anchors stay as they were until the next start. */
  function Release(g: GestureState): (r: GestureState)
    ensures r.Idle()
    ensures r.drag == g.drag && r.resize == g.resize
  {
    var g' := if g.isResizing then g.(isResizing := false) else g;
    if g'.isDragging then g'.(isDragging := false) else g'
  }
}

=== FILE: props.dfy ===
/** JavaScript values the modal reads from its props: optional numbers, the
    two ways the component falls back to a default, and `Math.max(lo,
    Math.min(hi, v))`, the clamp used for sizes and drag bounds. */
module Props {

  /** An optional prop. `Undefined` is JavaScript's `undefined`. */
  datatype Opt<+T> = Undefined | Defined(value: T)

  /** `v || fallback` on a numeric prop: `undefined` and `0` are falsy and
      take the fallback. */
  function Or(v: Opt<int>, fallback: int): (r: int)
  {
    if v.Defined? && v.value != 0 then v.value else fallback
  }

  /** `v !== undefined ? v : fallback`: only `undefined` takes the fallback,
      so `0` is kept. */
  function Else(v: Opt<int>, fallback: int): (r: int)
  {
    if v.Defined? then v.value else fallback
  }

  /** `Math.min(a, b)`: the smaller of the two. */
  function Min(a: int, b: int): (r: int)
    ensures r <= a && r <= b && (r == a || r == b)
  {
    if a <= b then a else b
  }

  /** `Math.max(a, b)`: the larger of the two. */
  function Max(a: int, b: int): (r: int)
    ensures a <= r && b <= r && (r == a || r == b)
  {
    if a >= b then a else b
  }

  /** `Math.max(lo, Math.min(hi, v))`. The lower bound is applied last, so
      it wins when the bounds cross. */
  function Clamp(lo: int, hi: int, v: int): (r: int)
    ensures lo <= r
    ensures lo <= hi ==> r <= hi
    ensures hi < lo ==> r == lo
    ensures lo <= v <= hi ==> r == v
    ensures v < lo ==> r == lo
    ensures lo <= hi < v ==> r == hi
  {
    Max(lo, Min(hi, v))
  }

  /** Clamping a value twice with the same bounds changes nothing. */
  lemma ClampIdempotent(lo: int, hi: int, v: int)
    ensures Clamp(lo, hi, Clamp(lo, hi, v)) == Clamp(lo, hi, v)
  {
  }

  /** The clamp is monotone in the clamped value. */
  lemma ClampMonotone(lo: int, hi: int, v: int, w: int)
    requires v <= w
    ensures Clamp(lo, hi, v) <= Clamp(lo, hi, w)
  {
  }
}

=== FILE: shell.dfy ===
/** The modal as a whole: its state, the events it reacts to, the updates
    it sends to its owner through `setProps`, and how it reconciles its
    geometry with the owner's placement props. */
module Shell {
  import opened Props
  import opened Geometry
  import opened Bounds
  import opened Gesture

  /** Which of `setProps`, `onResize`, `onMove` and `onClose` are truthy. */
  datatype Callbacks = Callbacks(setProps: bool, onResize: bool, onMove: bool, onClose: bool)

  /** The `trigger` of a close: 'escape', 'backdrop' or 'close-button'. */
  datatype Trigger = EscapeKey | Backdrop | CloseButton

  /** One `setProps` call made by the modal. */
  datatype Notification =
    | Resized(width: int, height: int, x: int, y: int, timestamp: int)
    | Moved(x: int, y: int, timestamp: int)
    | Closed(trigger: Trigger, timestamp: int)
    | OpenSetFalse

  /** The props the modal's behaviour depends on. */
  datatype Config = Config(isOpen: bool, hasTitle: bool, showCloseButton: bool,
                           modal: bool, backdrop: bool,
                           backdropClosable: bool, escapeClosable: bool,
                           gesture: GestureConfig, callbacks: Callbacks)

  /** The modal's own state: its geometry and its gesture flags. */
  datatype Modal = Modal(dims: Dims, gesture: GestureState)

  datatype Event =
    | MouseDown(path: seq<Element>, pointer: Point)
    | MouseMove(pointer: Point)
    | MouseUp
    | KeyDown(key: string)
    | BackdropClicked(onBackdropItself: bool)
    | CloseButtonClicked

  datatype StepResult = StepResult(modal: Modal, sent: seq<Notification>)

  /** The updates a close sends: the `onClose` report, only when `onClose`
      and `setProps` are both truthy, followed by `isOpen: false`, whenever
      `setProps` is there. */
  function Close(trigger: Trigger, cb: Callbacks, now: int): (r: seq<Notification>)
    ensures Closed(trigger, now) in r <==> cb.onClose && cb.setProps
    ensures OpenSetFalse in r <==> cb.setProps
    ensures forall i :: 0 <= i < |r| ==>
              r[i] == Closed(trigger, now) || (r[i] == OpenSetFalse && i == |r| - 1)
  {
    (if cb.onClose && cb.setProps then [Closed(trigger, now)] else [])
    + (if cb.setProps then [OpenSetFalse] else [])
  }

  /** The keydown listener is attached while the modal is open. */
  predicate KeyListenerAttached(cfg: Config) { cfg.isOpen }

  /** The keydown handler closes on Escape when escape-closable and open. */
  predicate EscapeCloses(cfg: Config, key: string)
  {
    key == "Escape" && cfg.escapeClosable && cfg.isOpen
  }

  /** Nothing is rendered while closed; the backdrop only for a modal with a
      backdrop, the close button only in a header with the button enabled. */
  predicate BackdropRendered(cfg: Config) { cfg.isOpen && cfg.modal && cfg.backdrop }

  predicate CloseButtonRendered(cfg: Config) { cfg.isOpen && cfg.hasTitle && cfg.showCloseButton }

  /** The backdrop handler closes only on a click whose target is the
      backdrop element itself, and only when backdrop-closable. */
  predicate BackdropCloses(cfg: Config, onBackdropItself: bool)
  {
    onBackdropItself && cfg.backdropClosable
  }

  /** The close a key, click or button press causes, if any. */
  function Dismissal(cfg: Config, ev: Event): (r: Opt<Trigger>)
    ensures r == Defined(EscapeKey) <==> ev.KeyDown? && ev.key == "Escape" && cfg.escapeClosable && cfg.isOpen
    ensures r == Defined(Backdrop) <==>
              ev.BackdropClicked? && ev.onBackdropItself && cfg.backdropClosable && BackdropRendered(cfg)
    ensures r == Defined(CloseButton) <==> ev == CloseButtonClicked && CloseButtonRendered(cfg)
    ensures r.Defined? ==> cfg.isOpen
  {
    match ev
    case KeyDown(key) =>
      if KeyListenerAttached(cfg) && EscapeCloses(cfg, key) then Defined(EscapeKey) else Undefined
    case BackdropClicked(self) =>
      if BackdropRendered(cfg) && BackdropCloses(cfg, self) then Defined(Backdrop) else Undefined
    case CloseButtonClicked =>
      if CloseButtonRendered(cfg) then Defined(CloseButton) else Undefined
    case _ => Undefined
  }

  /** A pointer move seen by the resize listener. */
  function ResizeMove(cfg: Config, m: Modal, p: Point, now: int): (r: StepResult)
    ensures r.modal.gesture == m.gesture
    ensures !m.gesture.isResizing ==> r == StepResult(m, [])
    ensures m.gesture.isResizing && cfg.gesture.limits.Ordered() ==>
              cfg.gesture.limits.minWidth <= r.modal.dims.width <= cfg.gesture.limits.maxWidth
              && cfg.gesture.limits.minHeight <= r.modal.dims.height <= cfg.gesture.limits.maxHeight
    ensures r.sent != [] <==> m.gesture.isResizing && cfg.callbacks.onResize && cfg.callbacks.setProps
    ensures r.sent != [] ==>
              r.sent == [Resized(r.modal.dims.width, r.modal.dims.height, r.modal.dims.x, r.modal.dims.y, now)]
  {
    if !m.gesture.isResizing then StepResult(m, [])
    else
      var d := ResizeTo(cfg.gesture, m.gesture.resize, p);
      StepResult(m.(dims := d),
                 if cfg.callbacks.onResize && cfg.callbacks.setProps
                 then [Resized(d.width, d.height, d.x, d.y, now)] else [])
  }

  /** A pointer move seen by the drag listener. */
  function DragMove(cfg: Config, vp: Viewport, m: Modal, p: Point, now: int): (r: StepResult)
    ensures r.modal.gesture == m.gesture
    ensures !m.gesture.isDragging ==> r == StepResult(m, [])
    ensures m.gesture.isDragging ==>
              r.modal.dims.width == m.gesture.drag.dims.width && r.modal.dims.height == m.gesture.drag.dims.height
    ensures r.sent != [] <==> m.gesture.isDragging && cfg.callbacks.onMove && cfg.callbacks.setProps
    ensures r.sent != [] ==> r.sent == [Moved(r.modal.dims.x, r.modal.dims.y, now)]
  {
    if !m.gesture.isDragging then StepResult(m, [])
    else
      var d := DragTo(cfg.gesture, vp, m.gesture.drag, p);
      StepResult(m.(dims := d),
                 if cfg.callbacks.onMove && cfg.callbacks.setProps then [Moved(d.x, d.y, now)] else [])
  }

  /** The modal's reaction to one event at time `now`, with the drag-start
      listener attached as `w` says. A move runs the attached move
      listeners in the order they were attached, so when both gestures are
      active the one started later decides the geometry. */
  function Step(cfg: Config, w: Wiring, vp: Viewport, m: Modal, ev: Event, now: int): (r: StepResult)
    // only a move changes the geometry, and only a press or a release the gestures
    ensures !ev.MouseMove? ==> r.modal.dims == m.dims
    ensures !ev.MouseDown? && !ev.MouseUp? ==> r.modal.gesture == m.gesture
    ensures ev.MouseDown? && !cfg.isOpen ==> r == StepResult(m, [])
    // a press on the open modal is dispatched to the element listeners and reports nothing
    ensures ev.MouseDown? && cfg.isOpen ==>
              r == StepResult(m.(gesture := Press(cfg.gesture, w, m.gesture, m.dims, ev.path, ev.pointer)), [])
    // a key, backdrop click or close-button click sends exactly the updates of the close it causes
    ensures !ev.MouseDown? && !ev.MouseMove? && !ev.MouseUp? ==>
              r.sent == (if Dismissal(cfg, ev).Defined? then Close(Dismissal(cfg, ev).value, cfg.callbacks, now) else [])
    ensures ev.MouseUp? ==> r.modal.gesture.Idle() && r.sent == []
    ensures !cfg.callbacks.setProps ==> r.sent == []
    // a closed modal reacts to nothing but the move listeners still attached
    ensures !cfg.isOpen && !ev.MouseMove? ==> r.sent == []
    // a move reports only moves and resizes; with one gesture it is that gesture's listener
    ensures ev.MouseMove? ==> forall n :: n in r.sent ==> n.Moved? || n.Resized?
    ensures ev.MouseMove? && !m.gesture.isResizing ==> r == DragMove(cfg, vp, m, ev.pointer, now)
    ensures ev.MouseMove? && !m.gesture.isDragging ==> r == ResizeMove(cfg, m, ev.pointer, now)
    // a move with no gesture does nothing; otherwise the listener attached last decides
    ensures ev.MouseMove? && m.gesture.Idle() ==> r == StepResult(m, [])
    ensures ev.MouseMove? && m.gesture.isResizing && (m.gesture.dragFirst || !m.gesture.isDragging) ==>
              r.modal.dims == ResizeTo(cfg.gesture, m.gesture.resize, ev.pointer)
    ensures ev.MouseMove? && m.gesture.isDragging && (!m.gesture.dragFirst || !m.gesture.isResizing) ==>
              r.modal.dims == DragTo(cfg.gesture, vp, m.gesture.drag, ev.pointer)
  {
    match ev
    case MouseDown(path, p) =>
      if cfg.isOpen then StepResult(m.(gesture := Press(cfg.gesture, w, m.gesture, m.dims, path, p)), [])
      else StepResult(m, [])
    case MouseMove(p) =>
      if m.gesture.dragFirst then
        var r1 := DragMove(cfg, vp, m, p, now);
        var r2 := ResizeMove(cfg, r1.modal, p, now);
        StepResult(r2.modal, r1.sent + r2.sent)
      else
        var r1 := ResizeMove(cfg, m, p, now);
        var r2 := DragMove(cfg, vp, r1.modal, p, now);
        StepResult(r2.modal, r1.sent + r2.sent)
    case MouseUp => StepResult(m.(gesture := Release(m.gesture)), [])
    case _ =>
      match Dismissal(cfg, ev)
      case Defined(t) => StepResult(m, Close(t, cfg.callbacks, now))
      case Undefined => StepResult(m, [])
  }

  /** Escape closes exactly when the modal is open and escape-closable; the
      close is reported when `onClose` is set and always sets `isOpen` to
      false through `setProps`, leaving the modal's state alone. */
  lemma EscapeBehaviour(cfg: Config, w: Wiring, vp: Viewport, m: Modal, key: string, now: int)
    ensures var r := Step(cfg, w, vp, m, KeyDown(key), now);
            && r.modal == m
            && (Closed(EscapeKey, now) in r.sent <==>
                  key == "Escape" && cfg.escapeClosable && cfg.isOpen && cfg.callbacks.onClose && cfg.callbacks.setProps)
            && (OpenSetFalse in r.sent <==> key == "Escape" && cfg.escapeClosable && cfg.isOpen && cfg.callbacks.setProps)
  {
  }

  /** A backdrop click closes only when its target is the backdrop element
      itself and the backdrop is closable. */
  lemma BackdropBehaviour(cfg: Config, w: Wiring, vp: Viewport, m: Modal, onBackdropItself: bool, now: int)
    requires BackdropRendered(cfg) && cfg.callbacks.setProps
    ensures var r := Step(cfg, w, vp, m, BackdropClicked(onBackdropItself), now);
            r.modal == m && (OpenSetFalse in r.sent <==> onBackdropItself && cfg.backdropClosable)
  {
  }

  /** A pointer move during a resize alone reports the new size, and the
      new size is within the limits. */
  lemma ResizeMoveReports(cfg: Config, w: Wiring, vp: Viewport, m: Modal, p: Point, now: int)
    requires m.gesture.isResizing && !m.gesture.isDragging
    requires cfg.gesture.limits.Ordered() && cfg.callbacks.onResize && cfg.callbacks.setProps
    ensures var r := Step(cfg, w, vp, m, MouseMove(p), now);
            var d := r.modal.dims;
            && r.sent == [Resized(d.width, d.height, d.x, d.y, now)]
            && cfg.gesture.limits.minWidth <= d.width <= cfg.gesture.limits.maxWidth
            && cfg.gesture.limits.minHeight <= d.height <= cfg.gesture.limits.maxHeight
  {
  }

  /** An in-flight gesture does not depend on the current geometry: after
      the owner overrides it, the next move lands where it would have
      anyway. */
  lemma GestureIgnoresCurrentDims(cfg: Config, w: Wiring, vp: Viewport, m: Modal, other: Dims, p: Point, now: int)
    requires m.gesture.isResizing || m.gesture.isDragging
    ensures Step(cfg, w, vp, m.(dims := other), MouseMove(p), now) == Step(cfg, w, vp, m, MouseMove(p), now)
  {
  }

  /** A header drag started first and a resize started second: the next
      move runs the drag listener and then the resize listener, so both are
      reported, in that order, and the resize decides the geometry. */
  lemma LaterGestureDecidesMove()
    ensures var cfg := Config(true, true, true, false, false, false, false,
                              GestureConfig(true, HeaderMode, true, BottomRight, DefaultLimits, NoBounds),
                              Callbacks(true, true, true, false));
            var m := Modal(Dims(400, 300, 100, 100), NoGesture);
            var evs := [TimedEvent(MouseDown([HeaderBar, Container], Point(150, 110)), 0),
                        TimedEvent(MouseDown([ResizeHandle, Container], Point(500, 400)), 1),
                        TimedEvent(MouseMove(Point(600, 450)), 2)];
            var r := Run(cfg, AsRendered, Viewport(1280, 800), m, evs);
            r.modal.dims == Dims(500, 350, 100, 100)
            && r.sent == [Moved(550, 440, 2), Resized(500, 350, 100, 100, 2)]
  {
  }

  // ---------------------------------------------------------------------
  // Runs of events
  // ---------------------------------------------------------------------

  datatype TimedEvent = TimedEvent(event: Event, now: int)

  /** The props after the owner applies the modal's own updates: an
      `isOpen: false` sent through `setProps` closes the modal. */
  function Applied(cfg: Config, sent: seq<Notification>): (r: Config)
    ensures r.callbacks == cfg.callbacks && r.gesture == cfg.gesture
    ensures OpenSetFalse in sent ==> !r.isOpen
    ensures OpenSetFalse !in sent ==> r == cfg
  {
    if OpenSetFalse in sent then cfg.(isOpen := false) else cfg
  }

  /** The modal's reaction to a sequence of events, in delivery order. After
      each event, the owner applies the modal's own `isOpen: false`, so a
      closed modal renders nothing and listens for no key. */
  function Run(cfg: Config, w: Wiring, vp: Viewport, m: Modal, evs: seq<TimedEvent>): (r: StepResult)
    ensures !cfg.callbacks.setProps ==> r.sent == []
    // a closed modal never closes again, and an open one closes at most once
    ensures !cfg.isOpen ==> OpenSetFalse !in r.sent
    ensures forall i, j :: 0 <= i < j < |r.sent| && r.sent[i] == OpenSetFalse ==> r.sent[j] != OpenSetFalse
    ensures (forall i :: 0 <= i < |evs| ==> !evs[i].event.MouseMove?) ==> r.modal.dims == m.dims
    ensures (forall i :: 0 <= i < |evs| ==> !evs[i].event.MouseDown? && !evs[i].event.MouseUp?) ==>
              r.modal.gesture == m.gesture
    decreases |evs|
  {
    if |evs| == 0 then StepResult(m, [])
    else
      var s := Step(cfg, w, vp, m, evs[0].event, evs[0].now);
      var rest := Run(Applied(cfg, s.sent), w, vp, s.modal, evs[1..]);
      StepResult(rest.modal, s.sent + rest.sent)
  }

  /** Two Escape presses: the first closes the modal, and the owner's
      `isOpen: false` removes the key listener, so the second does nothing. */
  lemma EscapeTwiceClosesOnce()
    ensures var cfg := Config(true, true, false, true, true, true, true,
                              GestureConfig(true, HeaderMode, true, BottomRight, DefaultLimits, NoBounds),
                              Callbacks(true, false, false, true));
            var evs := [TimedEvent(KeyDown("Escape"), 1), TimedEvent(KeyDown("Escape"), 2)];
            Run(cfg, AsRendered, Viewport(1280, 800), Modal(Dims(400, 300, 100, 100), NoGesture), evs).sent
              == [Closed(EscapeKey, 1), OpenSetFalse]
  {
  }

  /** What the owner may observe of any run: nothing without `setProps`, no
      move or resize report without its callback, no close report without
      `onClose`, each close report directly followed by `isOpen: false`,
      and every reported size within the limits. */
  ghost predicate SentWellFormed(cfg: Config, sent: seq<Notification>)
  {
    && (!cfg.callbacks.setProps ==> sent == [])
    && (forall i :: 0 <= i < |sent| && sent[i].Moved? ==> cfg.callbacks.onMove)
    && (forall i :: 0 <= i < |sent| && sent[i].Resized? ==> cfg.callbacks.onResize)
    && (forall i :: 0 <= i < |sent| && sent[i].Closed? ==>
          cfg.callbacks.onClose && i + 1 < |sent| && sent[i + 1] == OpenSetFalse)
    && (forall i :: 0 <= i < |sent| && sent[i].Resized? && cfg.gesture.limits.Ordered() ==>
          cfg.gesture.limits.minWidth <= sent[i].width <= cfg.gesture.limits.maxWidth
          && cfg.gesture.limits.minHeight <= sent[i].height <= cfg.gesture.limits.maxHeight)
    && (forall i :: 0 <= i < |sent| && sent[i].Moved? && cfg.gesture.bounds == ViewportBounds ==>
          0 <= sent[i].x && 0 <= sent[i].y)
  }

  /** Well-formedness depends only on the callbacks and the gesture props. */
  lemma SentWellFormedSameCallbacks(a: Config, b: Config, sent: seq<Notification>)
    requires a.callbacks == b.callbacks && a.gesture == b.gesture
    requires SentWellFormed(a, sent)
    ensures SentWellFormed(b, sent)
  {
  }

  lemma SentWellFormedAppend(cfg: Config, a: seq<Notification>, b: seq<Notification>)
    requires SentWellFormed(cfg, a) && SentWellFormed(cfg, b)
    ensures SentWellFormed(cfg, a + b)
  {
  }

  /** The updates of any close are well formed. */
  lemma CloseSentWellFormed(cfg: Config, t: Trigger, now: int)
    ensures SentWellFormed(cfg, Close(t, cfg.callbacks, now))
  {
  }

  /** The resize listener's report is well formed. */
  lemma ResizeMoveSentWellFormed(cfg: Config, m: Modal, p: Point, now: int)
    ensures SentWellFormed(cfg, ResizeMove(cfg, m, p, now).sent)
  {
  }

  /** The drag listener's report is well formed. */
  lemma DragMoveSentWellFormed(cfg: Config, vp: Viewport, m: Modal, p: Point, now: int)
    ensures SentWellFormed(cfg, DragMove(cfg, vp, m, p, now).sent)
  {
  }

  lemma StepSentWellFormed(cfg: Config, w: Wiring, vp: Viewport, m: Modal, ev: Event, now: int)
    ensures SentWellFormed(cfg, Step(cfg, w, vp, m, ev, now).sent)
  {
    var r := Step(cfg, w, vp, m, ev, now);
    match ev
    case MouseMove(p) =>
      if m.gesture.dragFirst {
        var r1 := DragMove(cfg, vp, m, p, now);
        var r2 := ResizeMove(cfg, r1.modal, p, now);
        assert r.sent == r1.sent + r2.sent;
        DragMoveSentWellFormed(cfg, vp, m, p, now);
        ResizeMoveSentWellFormed(cfg, r1.modal, p, now);
        SentWellFormedAppend(cfg, r1.sent, r2.sent);
      } else {
        var r1 := ResizeMove(cfg, m, p, now);
        var r2 := DragMove(cfg, vp, r1.modal, p, now);
        assert r.sent == r1.sent + r2.sent;
        ResizeMoveSentWellFormed(cfg, m, p, now);
        DragMoveSentWellFormed(cfg, vp, r1.modal, p, now);
        SentWellFormedAppend(cfg, r1.sent, r2.sent);
      }
    case MouseDown(_, _) =>
    case MouseUp =>
    case _ =>
      if Dismissal(cfg, ev).Defined? {
        CloseSentWellFormed(cfg, Dismissal(cfg, ev).value, now);
      }
  }

  /** Every run's updates to the owner are well formed. */
  lemma {:induction false} RunSentWellFormed(cfg: Config, w: Wiring, vp: Viewport, m: Modal, evs: seq<TimedEvent>)
    ensures SentWellFormed(cfg, Run(cfg, w, vp, m, evs).sent)
    decreases |evs|
  {
    if |evs| > 0 {
      var s := Step(cfg, w, vp, m, evs[0].event, evs[0].now);
      var next := Applied(cfg, s.sent);
      StepSentWellFormed(cfg, w, vp, m, evs[0].event, evs[0].now);
      RunSentWellFormed(next, w, vp, s.modal, evs[1..]);
      SentWellFormedSameCallbacks(next, cfg, Run(next, w, vp, s.modal, evs[1..]).sent);
      SentWellFormedAppend(cfg, s.sent, Run(next, w, vp, s.modal, evs[1..]).sent);
    }
  }

  /** Under viewport bounds, every reported move keeps the modal's corner
      inside the viewport. */
  lemma RunViewportMovesNonNegative(cfg: Config, w: Wiring, vp: Viewport, m: Modal, evs: seq<TimedEvent>, i: nat)
    requires cfg.gesture.bounds == ViewportBounds
    requires i < |Run(cfg, w, vp, m, evs).sent| && Run(cfg, w, vp, m, evs).sent[i].Moved?
    ensures 0 <= Run(cfg, w, vp, m, evs).sent[i].x && 0 <= Run(cfg, w, vp, m, evs).sent[i].y
  {
    RunSentWellFormed(cfg, w, vp, m, evs);
  }

  /** A run that ends with the pointer released leaves no gesture active,
      whatever happened before. */
  lemma {:induction false} RunEndsIdle(cfg: Config, w: Wiring, vp: Viewport, m: Modal, evs: seq<TimedEvent>)
    requires |evs| > 0 && evs[|evs| - 1].event == MouseUp
    ensures Run(cfg, w, vp, m, evs).modal.gesture.Idle()
    decreases |evs|
  {
    var s := Step(cfg, w, vp, m, evs[0].event, evs[0].now);
    if |evs| > 1 {
      assert evs[1..][|evs[1..]| - 1] == evs[|evs| - 1];
      RunEndsIdle(Applied(cfg, s.sent), w, vp, s.modal, evs[1..]);
    }
  }

  // ---------------------------------------------------------------------
  // Reconciliation with the owner's placement props
  // ---------------------------------------------------------------------

  /** The effect run when `width`, `height`, `x` or `y` change: a size prop
      replaces the size only when truthy, a coordinate prop replaces the
      coordinate whenever it is defined, including `0`. */
  function SyncDims(prev: Dims, p: Placement): (r: Dims)
    ensures p.width.Defined? && p.width.value != 0 ==> r.width == p.width.value
    ensures p.width.Undefined? || p.width.value == 0 ==> r.width == prev.width
    ensures p.height.Defined? && p.height.value != 0 ==> r.height == p.height.value
    ensures p.height.Undefined? || p.height.value == 0 ==> r.height == prev.height
    ensures p.x.Defined? ==> r.x == p.x.value
    ensures p.x.Undefined? ==> r.x == prev.x
    ensures p.y.Defined? ==> r.y == p.y.value
    ensures p.y.Undefined? ==> r.y == prev.y
  {
    Dims(Or(p.width, prev.width), Or(p.height, prev.height), Else(p.x, prev.x), Else(p.y, prev.y))
  }

  /** A size of `0` keeps the current size, but a coordinate of `0` moves
      the modal to the edge. */
  lemma SyncZeroAsymmetry(prev: Dims)
    requires prev.width != 0 && prev.x != 0
    ensures var p := Placement(Defined(0), Undefined, Defined(0), Undefined, Undefined, Undefined);
            SyncDims(prev, p).width == prev.width && SyncDims(prev, p).x == 0
  {
  }

  /** Syncing twice with the same props is syncing once. */
  lemma SyncIdempotent(prev: Dims, p: Placement)
    ensures SyncDims(SyncDims(prev, p), p) == SyncDims(prev, p)
  {
  }

  /** The effect run when an offset or a prop the placement depends on
      changes: with an offset defined, the position is placed afresh, the
      size left alone. */
  function Reposition(prev: Dims, vp: Viewport, p: Placement): (r: Dims)
    ensures r.width == prev.width && r.height == prev.height
    ensures !p.HasOffset() ==> r == prev
    ensures p.rightOffset.Defined? ==> r.x + p.Width() + p.rightOffset.value == vp.innerWidth
    ensures p.bottomOffset.Defined? ==> r.y + p.Height() + p.bottomOffset.value == vp.innerHeight
    // the axis without an offset is reset from its prop, where `0` counts as missing
    ensures p.rightOffset.Undefined? && p.bottomOffset.Defined? ==> r.x == Or(p.x, DefaultCoordinate)
    ensures p.bottomOffset.Undefined? && p.rightOffset.Defined? ==> r.y == Or(p.y, DefaultCoordinate)
    ensures p.HasOffset() ==> Point(r.x, r.y) == InitialPosition(vp, p)
  {
    if p.HasOffset() then
      var pos := InitialPosition(vp, p);
      prev.(x := pos.x, y := pos.y)
    else prev
  }

  /** The geometry after mounting: the initial state, then the sync effect,
      then the offset effect, in the order the effects are declared. The
      size is the size props with their defaults; an axis with an offset is
      placed from the far edge; an axis without one takes the coordinate
      prop as given, `0` included, unless the other axis has an offset, in
      which case a `0` coordinate becomes 100. Absent props take their
      defaults first. */
  function Mount(vp: Viewport, p: Placement): (d: Dims)
    ensures d.width == p.Width() && d.height == p.Height()
    ensures p.rightOffset.Defined? ==> d.x + d.width + p.rightOffset.value == vp.innerWidth
    ensures p.bottomOffset.Defined? ==> d.y + d.height + p.bottomOffset.value == vp.innerHeight
    ensures !p.HasOffset() ==> d.x == Else(p.x, DefaultCoordinate) && d.y == Else(p.y, DefaultCoordinate)
    ensures p.rightOffset.Undefined? && p.bottomOffset.Defined? ==> d.x == Or(p.x, DefaultCoordinate)
    ensures p.bottomOffset.Undefined? && p.rightOffset.Defined? ==> d.y == Or(p.y, DefaultCoordinate)
  {
    var q := WithDefaults(p);
    Reposition(SyncDims(InitialDims(vp, q), q), vp, q)
  }

  /** `x: 0` puts the modal at the left edge, but not once a bottom offset
      is also given. */
  lemma MountZeroCoordinate(vp: Viewport)
    ensures Mount(vp, Placement(Undefined, Undefined, Defined(0), Undefined, Undefined, Undefined)).x == 0
    ensures Mount(vp, Placement(Undefined, Undefined, Defined(0), Undefined, Undefined, Defined(20))).x == 100
  {
  }

  /** The sync effect's dependencies, `width`, `height`, `x` and `y`, as
      the component sees them (after the defaults) changed. */
  predicate SizeOrCoordinateChanged(before: Placement, after: Placement)
  {
    var b := WithDefaults(before);
    var a := WithDefaults(after);
    (b.width, b.height, b.x, b.y) != (a.width, a.height, a.x, a.y)
  }

  /** Some placement prop, as the component sees it, changed. */
  predicate PlacementChanged(before: Placement, after: Placement)
  {
    WithDefaults(before) != WithDefaults(after)
  }

  /** A change of placement props: each effect runs when one of its
      dependencies changed. The offset effect depends on all six props,
      through the placement rule it calls. Absent props take their
      defaults before the comparison. */
  function PropsChanged(prev: Dims, vp: Viewport, before: Placement, after: Placement): (r: Dims)
    ensures before == after ==> r == prev
    ensures !PlacementChanged(before, after) ==> r == prev
    // a size or coordinate prop changed: the sync effect runs, then the offset effect if an offset is set
    ensures SizeOrCoordinateChanged(before, after) && !after.HasOffset() ==> r == SyncDims(prev, WithDefaults(after))
    ensures SizeOrCoordinateChanged(before, after) ==>
              r.width == SyncDims(prev, WithDefaults(after)).width
              && r.height == SyncDims(prev, WithDefaults(after)).height
    // an absent coordinate is its default, so the sync moves the modal back to it
    ensures SizeOrCoordinateChanged(before, after) && !after.HasOffset() && after.x.Undefined? ==>
              r.x == DefaultCoordinate
    ensures SizeOrCoordinateChanged(before, after) && !after.HasOffset() && after.y.Undefined? ==>
              r.y == DefaultCoordinate
    // only the offsets changed: the size is kept
    ensures !SizeOrCoordinateChanged(before, after) ==> r.width == prev.width && r.height == prev.height
    ensures !SizeOrCoordinateChanged(before, after) && !after.HasOffset() ==> r == prev
    // any change with an offset set places the modal afresh
    ensures PlacementChanged(before, after) && after.HasOffset() ==> Point(r.x, r.y) == InitialPosition(vp, after)
  {
    var b := WithDefaults(before);
    var a := WithDefaults(after);
    var synced := if SizeOrCoordinateChanged(before, after) then SyncDims(prev, a) else prev;
    if b != a && a.HasOffset() then Reposition(synced, vp, a) else synced
  }

  /** Any change of placement props with an offset places that axis from
      the props' size, not the current one; when the width prop is not `0`
      and a size or coordinate prop is among the changed props, the modal's
      right edge lands exactly at the offset. */
  lemma OffsetsPinFarEdges(prev: Dims, vp: Viewport, before: Placement, after: Placement)
    requires PlacementChanged(before, after)
    ensures var d := PropsChanged(prev, vp, before, after);
            && (after.rightOffset.Defined? ==> d.x + after.Width() + after.rightOffset.value == vp.innerWidth)
            && (after.bottomOffset.Defined? ==> d.y + after.Height() + after.bottomOffset.value == vp.innerHeight)
    ensures var d := PropsChanged(prev, vp, before, after);
            SizeOrCoordinateChanged(before, after) && after.width != Defined(0) && after.rightOffset.Defined? ==>
              d.x + d.width + after.rightOffset.value == vp.innerWidth
  {
  }

  /** The owner never set `x` or `y` and the user dragged the modal to
      (700, 500): a new `width` runs the sync effect, which sees the default
      coordinates and moves the modal back to (100, 100). Likewise a new `x`
      resets a user-resized modal to the default width. */
  lemma OwnerChangeSnapsToDefaults()
    ensures var before := Placement(Defined(400), Undefined, Undefined, Undefined, Undefined, Undefined);
            var after := Placement(Defined(500), Undefined, Undefined, Undefined, Undefined, Undefined);
            PropsChanged(Dims(400, 300, 700, 500), Viewport(1280, 800), before, after) == Dims(500, 300, 100, 100)
    ensures var before := Placement(Undefined, Undefined, Undefined, Undefined, Undefined, Undefined);
            var after := Placement(Undefined, Undefined, Defined(200), Undefined, Undefined, Undefined);
            PropsChanged(Dims(600, 300, 100, 100), Viewport(1280, 800), before, after) == Dims(400, 300, 200, 100)
  {
  }

  /** After the user resized the modal to 600 pixels, changing only the
      right offset places it as if it were 400 wide: its right edge ends
      200 pixels past the offset. */
  lemma ResizedModalMissesOffset()
    ensures var prev := Dims(600, 300, 660, 100);
            var before := Placement(Defined(400), Defined(300), Undefined, Undefined, Defined(20), Undefined);
            var after := Placement(Defined(400), Defined(300), Undefined, Undefined, Defined(40), Undefined);
            var d := PropsChanged(prev, Viewport(1280, 800), before, after);
            d.width == 600 && d.x + d.width + 40 == 1280 + 200
  {
  }

  /** With a size prop of `0` the kept size and the size the placement
      assumes differ, and the far edge misses its offset. */
  lemma ZeroWidthMissesOffset()
    ensures var prev := Dims(600, 300, 0, 0);
            var before := Placement(Defined(600), Defined(300), Undefined, Undefined, Defined(20), Undefined);
            var after := Placement(Defined(0), Defined(300), Undefined, Undefined, Defined(20), Undefined);
            var d := PropsChanged(prev, Viewport(1280, 800), before, after);
            d.width == 600 && d.x + d.width + 20 == 1480
  {
  }
}
